=== FILE: README.md ===
# Authentication and authorization clients: a Dafny model

This project models the accept/reject logic of the two client programs of a
ledger-backed identity system. The ledger is a FISCO BCOS contract, reached
through its Java SDK.

- **Authentication** (`AuthenticationClient`). An account registers a record:
  its public key, a profile, and a self-signature over
  `accountId + profile + publicKey`. Login then runs these steps in order:
  1. fetch the record;
  2. verify its self-signature;
  3. issue a timestamped token over `accountId + timeStamp + ownPublicKey` with the client's key pair;
  4. reject the token if more than 300000 ms have passed;
  5. verify the token.
- **Authorization** (`AuthorizationClient`). An owner registers a resource
  record, signed over `resource + accountId + publicKey`. The owner's public
  key is saved locally as the *owner anchor*. Grant runs these steps in order:
  1. issue a token over `accountId + timeStamp + anchor`;
  2. check its age;
  3. fetch the record;
  4. check that the stored key equals the anchor;
  5. verify the token;
  6. verify the resource signature.
- **Shared pieces.** Both clients use the same three-way reading of a register
  receipt. They use the same blank test when loading configuration. The
  authentication client also has a random-id generator and two batch loops that
  count successes and failures.

Keccak-256 hashing and secp256k1 ECDSA signing (SEC 2, section 2.4.1) are not
modelled concretely. `Crypto.Suite` holds three uninterpreted function values,
`hash`, `sign` and `verify`. Properties that rely on cryptography require
`SignVerifyRoundTrip(cs)`: a signature made with a key pair verifies under that
key pair's public key, for every digest. Nothing else is assumed.

Inputs to the model:

- **Ledger reads.** `Records.Ledger` is a `select` function. Its answer is either
  `Reply(ret, record)` or `SdkFailure`, which stands for an SDK exception.
- **Register receipts.** These are passed in as values: a list of event return
  codes, or `SubmitFailure`.
- **Clock readings.** `now` and the token timestamp are `Protocol.Millis`, the
  non-negative Java `long` range. The difference of two such values always fits
  in a `long`, so `now - issuedAt` is exact.
- **Random draws.** These are given as sequences of picks.

Each flow returns a `Run`: the steps it took, in order, and one typed outcome.
The printed messages of the source become these outcome constructors.

Modules:

| module | file | contents |
|---|---|---|
| `Optional` | optional.dfy | `Option` |
| `Text` | text.dfy | decimal rendering of a `long`/`int` and its inverse; Java `trim()` and the blank test |
| `Crypto` | crypto.dfy | key pair, crypto suite, round-trip predicate, sign/verify of data |
| `Records` | records.dfy | stored tuple, ledger answers, receipts, configuration loads, receipt interpretation |
| `Protocol` | protocol.dfy | freshness window, token text and token, flow steps and their order |
| `Authentication` | authentication.dfy | login flow, account registration, self-signed records |
| `AuthenticationBatch` | authentication_batch.dfy | `getRandomString`, `batchloginAuthenticationAddress`, `batchRegister` |
| `Authorization` | authorization.dfy | grant flow, owner anchor, resource registration |

Behaviours of the code worth noting:

- **Empty receipt.** A receipt with no register event gives `EventNotFound`. It
  is not a ledger error.
- **Batch loops and exceptions.** An SDK exception in either batch loop ends the
  whole batch. No counters are reported.
- **Account registration.** `registerAuthenticationAccount` submits the signature
  the caller supplies. It neither computes nor checks one. Only `batchRegister`
  signs.
- **Token keys.** The grant token is signed and verified with the client's own key
  pair, so the token check always passes under the round trip. The same holds for
  login. `InvalidToken` is therefore unreachable in both flows: see
  `Authentication.LoginNeverInvalidToken` and
  `Authorization.GrantNeverInvalidToken`.
- **Key pairs across runs.** Every run of a client creates a fresh key pair. A
  grant is therefore in general run with a different key pair from the
  registration. `Authorization.RegisterThenGrant` allows this. It links the two
  runs only through the saved owner anchor and the stored record.

## Model

| member | source | states |
|---|---|---|
| `Crypto.SignData` | src/main/java/org/fisco/bcos/asset/client/AuthorizationClient.java:58-72 | signing hashes the data and signs the digest with the key pair; under the round trip the result verifies for that data under the key pair's public key |
| `Text.Decimal` | src/main/java/org/fisco/bcos/asset/client/AuthenticationClient.java:114-115 | the decimal text of a long is non-empty, all digits, and starts with `0` only for zero (no leading zeros) |
| `Text.DecimalRoundTrip` | src/main/java/org/fisco/bcos/asset/client/AuthenticationClient.java:114-115 | parsing the rendered decimal text gives the number back |
| `Text.BlankIffAllTrimmed` | src/main/java/org/fisco/bcos/asset/client/AuthenticationClient.java:78 | `trim().equals("")` holds exactly when every character is at most U+0020 |
| `Records.LoadProperty` | src/main/java/org/fisco/bcos/asset/client/AuthorizationClient.java:147-159 | a configuration load succeeds exactly when the value is present and has a character above U+0020, and then returns it unchanged |
| `Records.InterpretReceipt` | src/main/java/org/fisco/bcos/asset/client/AuthorizationClient.java:297-311 | no event means event-not-found; a first event with ret 0 means success; any other ret means failure carrying that non-zero code; an SDK exception is a ledger error |
| `Records.Submit` | src/main/java/org/fisco/bcos/asset/client/AuthorizationClient.java:286-311 | a tuple is submitted exactly when the contract address loads; the outcome is then the receipt's interpretation, otherwise a configuration error |
| `Protocol.IssueAccessToken` | src/main/java/org/fisco/bcos/asset/client/AuthorizationClient.java:176-178 | the token is the key pair's signature over `accountId + timeStamp + key`; under the round trip it verifies under that key pair's public key |
| `Protocol.ExpiryBoundary` | src/main/java/org/fisco/bcos/asset/client/AuthenticationClient.java:121-122 | an elapsed time of exactly 300000 ms is not expired, 300001 ms is, and a token from the future never is |
| `Protocol.TokenMessageBindsTimestamp` | src/main/java/org/fisco/bcos/asset/client/AuthenticationClient.java:114-115 | for a fixed account id and key, two token texts are equal only if their timestamps are equal |
| `Authentication.Login` | src/main/java/org/fisco/bcos/asset/client/AuthenticationClient.java:95-150 | login's steps are a prefix of the fixed order; the record is fetched exactly when the address loads and self-checked exactly when the fetch answered with code 0; AccountNotFound exactly on a non-zero code; a token is issued exactly when the record is found and self-consistent; the token is verified exactly when it was issued and is fresh; each outcome holds exactly on its branch: configuration error when the address does not load, ledger error on an SDK exception, InvalidAccountData on a failed self-check, TokenExpired on an issued token older than 300000 ms, success exactly when the fresh token verifies |
| `Authentication.LoginCheckOrder` | src/main/java/org/fisco/bcos/asset/client/AuthenticationClient.java:100-126 | the fetch comes before the self-check, the self-check before the token is issued, and the expiry check before the token is verified |
| `Authentication.LoginNotFoundVerifiesNothing` | src/main/java/org/fisco/bcos/asset/client/AuthenticationClient.java:100-142 | a non-zero return code gives AccountNotFound after only the address load and the fetch, the same for every crypto suite, key pair and clock |
| `Authentication.LoginInvalidRecordIssuesNoToken` | src/main/java/org/fisco/bcos/asset/client/AuthenticationClient.java:107-138 | a stored record whose self-signature over `accountId + profile + publicKey` fails gives InvalidAccountData at every time, and no token is issued |
| `Authentication.LoginExpiryBoundary` | src/main/java/org/fisco/bcos/asset/client/AuthenticationClient.java:121-125 | for a found, self-consistent record, 300000 ms elapsed still reaches token verification; every longer elapsed time stops at TokenExpired before it |
| `Authentication.LoginNeverInvalidToken` | src/main/java/org/fisco/bcos/asset/client/AuthenticationClient.java:114-127 | under the round trip the self-issued token always verifies, so login never returns InvalidToken |
| `Authentication.LoginSuccessIff` | src/main/java/org/fisco/bcos/asset/client/AuthenticationClient.java:98-128 | under the round trip, login succeeds exactly when the address loads, the record is found, its self-signature verifies and the token is fresh |
| `Authentication.RegisterAccount` | src/main/java/org/fisco/bcos/asset/client/AuthenticationClient.java:275-306 | the caller's tuple is submitted unchanged, without any local signature check, exactly when the contract address loads; the receipt is then read three ways (no event: event-not-found; first event ret 0: success; other ret: failure with that code), an SDK exception is a ledger error, and an unloadable address is a configuration error |
| `Authentication.RegisteredTupleMeetsLoginSelfCheck` | src/main/java/org/fisco/bcos/asset/client/AuthenticationClient.java:275-306 | a success receipt registers the tuple whatever its signature; once the ledger holds it, a signature that does not verify over `accountId + profile + publicKey` makes every login stop at InvalidAccountData, and one that verifies logs in within the window |
| `Authentication.SelfSignedSubmission` | src/main/java/org/fisco/bcos/asset/client/AuthenticationClient.java:236-240 | the batch record carries the client's key and profile, signed over `user + profile + publicKey`; under the round trip it passes login's self-check |
| `Authentication.SelfSignedRecordLogsIn` | src/main/java/org/fisco/bcos/asset/client/AuthenticationClient.java:107-128 | a self-signed record held unchanged by the ledger logs in within the window through every step, whatever the logging-in client's key pair |
| `AuthenticationBatch.GetRandomString` | src/main/java/org/fisco/bcos/asset/client/AuthenticationClient.java:152-161 | the result has one character per draw (none for a negative length): the alphabet character at that draw's index, so every character is in the 62-character alphabet |
| `AuthenticationBatch.FoundCount` | src/main/java/org/fisco/bcos/asset/client/AuthenticationClient.java:182-190 | the number of found answers is at most the number of draws, and equals it exactly when every drawn id is found |
| `AuthenticationBatch.BatchLogin` | src/main/java/org/fisco/bcos/asset/client/AuthenticationClient.java:164-213 | the batch finishes exactly when the address loads, the amount is non-negative and no query throws; an unloadable address aborts with a configuration error, a throwing query with a ledger error; then success + fail == total == amount and success counts the found ids |
| `AuthenticationBatch.BatchSubmission` | src/main/java/org/fisco/bcos/asset/client/AuthenticationClient.java:234-240 | the draw-k submission is for `batchtestuser` + k with the fixed profile, and under the round trip passes login's self-check |
| `AuthenticationBatch.ReceiptCountsPartition` | src/main/java/org/fisco/bcos/asset/client/AuthenticationClient.java:242-257 | when no submission threw, registered + rejected + missing-event receipts add up to the number of receipts |
| `AuthenticationBatch.BatchRegister` | src/main/java/org/fisco/bcos/asset/client/AuthenticationClient.java:217-274 | each submission is the self-signed record for its draw; the batch finishes exactly when the address loads, the amount is non-negative and no submission throws; an unloadable address aborts with a configuration error before anything is submitted, and a throwing submission aborts with a ledger error; then success and fail count registered and rejected receipts and success + fail + missing == total == amount |
| `AuthenticationBatch.BatchRegisteredAccountLogsIn` | src/main/java/org/fisco/bcos/asset/client/AuthenticationClient.java:232-240 | a record the batch registered, held unchanged by the ledger, logs in within the window |
| `Authorization.OwnerAnchor` | src/main/java/org/fisco/bcos/asset/client/AuthorizationClient.java:164-171 | the anchor is the recorded owner key when it loads, and `""` when the load fails (the failure is swallowed) |
| `Authorization.Grant` | src/main/java/org/fisco/bcos/asset/client/AuthorizationClient.java:161-247 | grant's steps are a prefix of the fixed order; Expired exactly when more than the window elapsed; the ledger is read exactly when fresh and the address loads; the owner is checked exactly when the fetch answered with code 0; the token is verified only after the owner matched; the resource signature is checked exactly when the token check ran and passed; Granted only after the resource signature verified; each failure holds exactly on its branch: configuration error when fresh and the address does not load, ledger error when the fetch throws, ResourceNotFound on a non-zero code, OwnerMismatch when the stored key differs from the anchor, InvalidToken exactly when the token check ran and failed |
| `Authorization.GrantCheckOrder` | src/main/java/org/fisco/bcos/asset/client/AuthorizationClient.java:176-214 | the expiry check comes before the ledger read, the owner check before token verification, and token verification before the resource check |
| `Authorization.GrantExpiredIgnoresLedger` | src/main/java/org/fisco/bcos/asset/client/AuthorizationClient.java:183-191 | an expired token gives Expired after three steps, the same for any ledger and any contract address |
| `Authorization.GrantExpiryBoundary` | src/main/java/org/fisco/bcos/asset/client/AuthorizationClient.java:183-186 | 300000 ms elapsed still reads the ledger; 300001 ms is Expired |
| `Authorization.GrantNotFoundVerifiesNothing` | src/main/java/org/fisco/bcos/asset/client/AuthorizationClient.java:191-236 | a non-zero return code gives ResourceNotFound right after the fetch, the same for every crypto suite and key pair |
| `Authorization.GrantOwnerMismatchIgnoresSignatures` | src/main/java/org/fisco/bcos/asset/client/AuthorizationClient.java:202-230 | a stored key other than the anchor gives OwnerMismatch right after the owner check, whatever the token and the stored data and signature |
| `Authorization.GrantNeverInvalidToken` | src/main/java/org/fisco/bcos/asset/client/AuthorizationClient.java:176-206 | under the round trip the token signed and verified with the client's own key pair always verifies, so grant never returns InvalidToken |
| `Authorization.GrantedIff` | src/main/java/org/fisco/bcos/asset/client/AuthorizationClient.java:183-222 | under the round trip, Granted exactly when fresh, found, owner-matched and the resource signature over `resource + accountId + publicKey` verifies; ResourceDataInvalid exactly when only the last fails |
| `Authorization.RegisterResource` | src/main/java/org/fisco/bcos/asset/client/AuthorizationClient.java:273-316 | the client's own key becomes the owner anchor; the submitted record carries that key and the resource, and under the round trip its signature verifies; the tuple is submitted exactly when the contract address loads, the outcome is then the receipt's interpretation, and otherwise a configuration error |
| `Authorization.RegisterThenGrant` | src/main/java/org/fisco/bcos/asset/client/AuthorizationClient.java:277-296 | after registration with a non-blank key, a fresh grant on the unchanged record is Granted through all eight steps, for any granting key pair |

## Left out

- AuthenticationBatch.BatchRegister: on a ledger-error abort the contract does not say which draw threw; the submissions made so far are still each the self-signed record of their draw.
- Keccak-256 and secp256k1 ECDSA (`calculateHashWithkeccak256`, `createECDSACryptoSuite`, the crypto suite calls) are not modelled. They are uninterpreted functions, and only the sign/verify round trip is assumed.
- Tamper sensitivity is not stated. It says that a record changed after signing fails its check, and it needs unforgeability of the signature scheme, which is not assumed. What is proved is that a failed check gives InvalidAccountData or ResourceDataInvalid.
- The contract itself is not part of this model: its storage, its uniqueness of account ids, its return codes and the duplicate-registration race. Its answers are inputs.
- `initialize`, `deploy*AndRecordAddr` and `Authentication.load`/`Authorization.load` are SDK and Spring bootstrap, and are left out.
- `record*` and `load*` file reads and writes are left out. Only the blank test of the loads is kept.
- `queryAuthorizationAddress` is left out. It only fetches and prints.
- `main` and `Usage` are command-line dispatch, and are left out.
- `unittestReg` and `unittestGrant` are left out as code: their payload strings are fixtures. The pairing they exercise is `Authorization.RegisterThenGrant`.
- Timing printouts, per-step elapsed times and the floating-point rates and percentages of the batch loops are left out.
- `java.util.Random` is not modelled. Its draws are given as sequences constrained to the range `nextInt` promises.
- Authorization.RegisterResource: a failed write of the owner key is swallowed in the source. The model assumes the write succeeds, because it is file I/O.
- Authorization.RegisterThenGrant: assumes the ledger answers `select` with the submitted record and return code 0, because what the contract stores is not part of this model.

=== FILE: authentication.dfy ===
/**
  The authentication protocol: registration of a self-signed identity record
  and the login challenge over it.

  Login runs, in order: load the contract address, fetch the record, verify its
  self-signature over `accountId + profile + publicKey`, issue a token over
  `accountId + timeStamp + ownPublicKey` with the client's key pair, check the
  token's age, and verify the token under the client's own public key.
 */
module Authentication {
  import opened Crypto
  import opened Records
  import opened Protocol

  datatype LoginOutcome =
    | LoginSuccess
    | AccountNotFound     // select returned a non-zero code
    | InvalidAccountData  // the stored record's self-signature does not verify
    | TokenExpired        // more than the window elapsed since the token was issued
    | InvalidToken        // the token signature does not verify
    | LoginAborted(fault: Fault)

  const LoginPipeline: seq<Step> := [LoadAddress, FetchRecord, VerifySelfSignature, IssueToken, CheckExpiry, VerifyToken]

  /** The text an identity record's signature covers: `accountId + profile + publicKey`. */
  function IdentityMessage(accountId: string, profile: string, publicKey: string): string {
    accountId + profile + publicKey
  }

  /** The stored record's self-signature verifies under the record's own public key. */
  predicate SelfSignatureValid(cs: Suite, accountId: string, rec: Record) {
    VerifyData(cs, rec.publicKey, IdentityMessage(accountId, rec.data, rec.publicKey), rec.signature)
  }

  /** The login decision flow (`loginAuthenticationAddress`), with the two clock readings as parameters. */
  function Login(cs: Suite, kp: KeyPair, cfg: Config, ledger: Ledger, accountId: string,
                 issuedAt: Millis, now: Millis): (r: Run<LoginOutcome>)
    ensures r.steps <= LoginPipeline && |r.steps| >= 1
    ensures r.outcome == AccountNotFound <==>
      LoadProperty(cfg.contractAddress).Some? && ledger.select(accountId).Reply? && ledger.select(accountId).ret != 0
    ensures FetchRecord in r.steps <==> LoadProperty(cfg.contractAddress).Some?
    ensures VerifySelfSignature in r.steps <==>
      LoadProperty(cfg.contractAddress).Some? && ledger.select(accountId).Reply? && ledger.select(accountId).ret == 0
    ensures IssueToken in r.steps <==>
      LoadProperty(cfg.contractAddress).Some? && ledger.select(accountId).Reply? && ledger.select(accountId).ret == 0
      && SelfSignatureValid(cs, accountId, ledger.select(accountId).record)
    ensures VerifyToken in r.steps <==> IssueToken in r.steps && !IsExpired(issuedAt, now)
    ensures r.outcome == LoginAborted(ConfigurationError) <==> LoadProperty(cfg.contractAddress).None?
    ensures r.outcome == LoginAborted(LedgerError) <==>
      LoadProperty(cfg.contractAddress).Some? && ledger.select(accountId).SdkFailure?
    ensures r.outcome == InvalidAccountData <==>
      LoadProperty(cfg.contractAddress).Some? && ledger.select(accountId).Reply? && ledger.select(accountId).ret == 0
      && !SelfSignatureValid(cs, accountId, ledger.select(accountId).record)
    ensures r.outcome == TokenExpired <==> IssueToken in r.steps && IsExpired(issuedAt, now)
    ensures r.outcome == LoginSuccess <==>
      VerifyToken in r.steps
      && VerifyData(cs, kp.hexPublicKey, TokenMessage(accountId, issuedAt, kp.hexPublicKey),
                    IssueAccessToken(cs, kp, accountId, issuedAt, kp.hexPublicKey))
  {
    var s0 := [LoadAddress];
    if LoadProperty(cfg.contractAddress).None? then Run(s0, LoginAborted(ConfigurationError))
    else
      var s1 := s0 + [FetchRecord];
      match ledger.select(accountId)
      case SdkFailure => Run(s1, LoginAborted(LedgerError))
      case Reply(ret, rec) =>
        if ret != 0 then Run(s1, AccountNotFound)
        else
          var s2 := s1 + [VerifySelfSignature];
          if !SelfSignatureValid(cs, accountId, rec) then Run(s2, InvalidAccountData)
          else
            var token := IssueAccessToken(cs, kp, accountId, issuedAt, kp.hexPublicKey);
            var s3 := s2 + [IssueToken, CheckExpiry];
            if IsExpired(issuedAt, now) then Run(s3, TokenExpired)
            else
              var valid := VerifyData(cs, kp.hexPublicKey, TokenMessage(accountId, issuedAt, kp.hexPublicKey), token);
              Run(s3 + [VerifyToken], if valid then LoginSuccess else InvalidToken)
  }

  /** The record's signature is checked before any token exists, and the age before the token's signature. */
  lemma LoginCheckOrder(cs: Suite, kp: KeyPair, cfg: Config, ledger: Ledger, accountId: string,
                        issuedAt: Millis, now: Millis)
    ensures Precedes(Login(cs, kp, cfg, ledger, accountId, issuedAt, now).steps, FetchRecord, VerifySelfSignature)
    ensures Precedes(Login(cs, kp, cfg, ledger, accountId, issuedAt, now).steps, VerifySelfSignature, IssueToken)
    ensures Precedes(Login(cs, kp, cfg, ledger, accountId, issuedAt, now).steps, CheckExpiry, VerifyToken)
  {
    var steps := Login(cs, kp, cfg, ledger, accountId, issuedAt, now).steps;
    PrefixKeepsOrder(steps, LoginPipeline, 1, 2);
    PrefixKeepsOrder(steps, LoginPipeline, 2, 3);
    PrefixKeepsOrder(steps, LoginPipeline, 4, 5);
  }

  /** A non-zero return code ends login at AccountNotFound, whatever the crypto suite, key pair or clock. */
  lemma LoginNotFoundVerifiesNothing(cs1: Suite, cs2: Suite, kp1: KeyPair, kp2: KeyPair, cfg: Config,
                                     ledger: Ledger, accountId: string,
                                     issuedAt1: Millis, now1: Millis, issuedAt2: Millis, now2: Millis)
    requires LoadProperty(cfg.contractAddress).Some?
    requires ledger.select(accountId).Reply? && ledger.select(accountId).ret != 0
    ensures Login(cs1, kp1, cfg, ledger, accountId, issuedAt1, now1)
         == Login(cs2, kp2, cfg, ledger, accountId, issuedAt2, now2)
         == Run([LoadAddress, FetchRecord], AccountNotFound)
  {
  }

  /** A record whose self-signature fails ends login at InvalidAccountData before any token is issued, at every time. */
  lemma LoginInvalidRecordIssuesNoToken(cs: Suite, kp: KeyPair, cfg: Config, ledger: Ledger, accountId: string,
                                        issuedAt: Millis, now: Millis)
    requires LoadProperty(cfg.contractAddress).Some?
    requires ledger.select(accountId).Reply? && ledger.select(accountId).ret == 0
    requires !SelfSignatureValid(cs, accountId, ledger.select(accountId).record)
    ensures Login(cs, kp, cfg, ledger, accountId, issuedAt, now).outcome == InvalidAccountData
    ensures IssueToken !in Login(cs, kp, cfg, ledger, accountId, issuedAt, now).steps
  {
  }

  /**
    Expiry is decided before the token's signature: exactly the window still
    reaches token verification; any longer elapsed time is TokenExpired.
   */
  lemma LoginExpiryBoundary(cs: Suite, kp: KeyPair, cfg: Config, ledger: Ledger, accountId: string,
                            issuedAt: Millis, now: Millis)
    requires LoadProperty(cfg.contractAddress).Some?
    requires ledger.select(accountId).Reply? && ledger.select(accountId).ret == 0
    requires SelfSignatureValid(cs, accountId, ledger.select(accountId).record)
    ensures now - issuedAt == ExpiryWindowMillis ==>
      VerifyToken in Login(cs, kp, cfg, ledger, accountId, issuedAt, now).steps
    ensures now - issuedAt > ExpiryWindowMillis ==>
      Login(cs, kp, cfg, ledger, accountId, issuedAt, now) == Run(LoginPipeline[..5], TokenExpired)
  {
  }

  /** Under the round trip, a self-issued token always verifies: InvalidToken cannot happen. */
  lemma LoginNeverInvalidToken(cs: Suite, kp: KeyPair, cfg: Config, ledger: Ledger, accountId: string,
                               issuedAt: Millis, now: Millis)
    requires SignVerifyRoundTrip(cs)
    ensures Login(cs, kp, cfg, ledger, accountId, issuedAt, now).outcome != InvalidToken
  {
  }

  /** Under the round trip, login succeeds exactly when the record is found, self-consistent and the token fresh. */
  lemma LoginSuccessIff(cs: Suite, kp: KeyPair, cfg: Config, ledger: Ledger, accountId: string,
                        issuedAt: Millis, now: Millis)
    requires SignVerifyRoundTrip(cs)
    ensures Login(cs, kp, cfg, ledger, accountId, issuedAt, now).outcome == LoginSuccess <==>
      && LoadProperty(cfg.contractAddress).Some?
      && ledger.select(accountId).Reply?
      && ledger.select(accountId).ret == 0
      && SelfSignatureValid(cs, accountId, ledger.select(accountId).record)
      && !IsExpired(issuedAt, now)
  {
  }

  /** `registerAuthenticationAccount`: submit the caller's tuple as given; the signature is not checked locally. */
  function RegisterAccount(cfg: Config, accountId: string, publicKey: string, profile: string,
                           signature: string, receipt: Receipt): (reg: Registration)
    ensures reg.submitted.Some? ==>
      reg.submitted.value == Submission(accountId, Record(publicKey, profile, signature))
    ensures reg.submitted.Some? <==> LoadProperty(cfg.contractAddress).Some?
    ensures reg.submitted.Some? ==> reg.outcome == InterpretReceipt(receipt)
    ensures reg.submitted.None? ==> reg.outcome == RegisterAborted(ConfigurationError)
  {
    Submit(cfg, Submission(accountId, Record(publicKey, profile, signature)), receipt)
  }

  /**
    Registration does not check the caller's signature, login does: a tuple whose
    signature does not verify over `accountId + profile + publicKey` is still
    registered on a success receipt, and once the ledger holds it, every login
    on it ends at InvalidAccountData without issuing a token. A tuple whose
    signature does verify logs in within the window.
   */
  lemma RegisteredTupleMeetsLoginSelfCheck(cs: Suite, client: KeyPair, cfg: Config, ledger: Ledger,
                                           accountId: string, publicKey: string, profile: string,
                                           signature: string, issuedAt: Millis, now: Millis)
    requires LoadProperty(cfg.contractAddress).Some?
    requires ledger.select(accountId) == Reply(0, Record(publicKey, profile, signature))
    ensures RegisterAccount(cfg, accountId, publicKey, profile, signature, Receipt([0])).outcome == Registered
    ensures !VerifyData(cs, publicKey, IdentityMessage(accountId, profile, publicKey), signature) ==>
      Login(cs, client, cfg, ledger, accountId, issuedAt, now) == Run(LoginPipeline[..3], InvalidAccountData)
    ensures SignVerifyRoundTrip(cs) && !IsExpired(issuedAt, now)
            && VerifyData(cs, publicKey, IdentityMessage(accountId, profile, publicKey), signature) ==>
      Login(cs, client, cfg, ledger, accountId, issuedAt, now) == Run(LoginPipeline, LoginSuccess)
  {
  }

  /** The record `batchRegister` builds: the client's own key and its signature over `user + profile + publicKey`. */
  function SelfSignedSubmission(cs: Suite, kp: KeyPair, accountId: string, profile: string): (sub: Submission)
    ensures sub.accountId == accountId && sub.record.publicKey == kp.hexPublicKey && sub.record.data == profile
    ensures SignVerifyRoundTrip(cs) ==> SelfSignatureValid(cs, accountId, sub.record)
  {
    var signature := SignData(cs, kp, IdentityMessage(accountId, profile, kp.hexPublicKey));
    Submission(accountId, Record(kp.hexPublicKey, profile, signature))
  }

  /**
    A self-signed record that the ledger returns unchanged logs in within the
    window, for any client key pair doing the login.
   */
  lemma SelfSignedRecordLogsIn(cs: Suite, registrant: KeyPair, client: KeyPair, cfg: Config, ledger: Ledger,
                               accountId: string, profile: string, issuedAt: Millis, now: Millis)
    requires SignVerifyRoundTrip(cs)
    requires LoadProperty(cfg.contractAddress).Some?
    requires ledger.select(accountId) == Reply(0, SelfSignedSubmission(cs, registrant, accountId, profile).record)
    requires !IsExpired(issuedAt, now)
    ensures Login(cs, client, cfg, ledger, accountId, issuedAt, now) == Run(LoginPipeline, LoginSuccess)
  {
  }
}

=== FILE: authentication_batch.dfy ===
/**
  The load-generation side of the authentication client: the random id
  generator and the two batch loops with their success/fail counters. The
  values `java.util.Random` would draw are given as sequences of picks, and the
  ledger's answers to each register transaction are given as receipts.
 */
module AuthenticationBatch {
  import opened Text
  import opened Crypto
  import opened Records
  import Authentication
  import Protocol

  /** The 62 characters `getRandomString` draws from. */
  const Alphabet: string := "abcdefghijklmnopqrstuvwxyzABCDEFGHIJKLMNOPQRSTUVWXYZ0123456789"

  /**
    `getRandomString(length)`: one alphabet character per draw of `nextInt(62)`.
    A negative length runs the loop zero times.
   */
  method GetRandomString(length: int, picks: seq<nat>) returns (s: string)
    requires |picks| == (if length < 0 then 0 else length)
    requires forall j :: 0 <= j < |picks| ==> picks[j] < |Alphabet|
    ensures |s| == |picks|
    ensures forall j :: 0 <= j < |s| ==> s[j] == Alphabet[picks[j]]
    ensures forall j :: 0 <= j < |s| ==> s[j] in Alphabet
  {
    s := "";
    var i := 0;
    while i < length
      invariant 0 <= i <= |picks|
      invariant |s| == i
      invariant forall j :: 0 <= j < i ==> s[j] == Alphabet[picks[j]]
    {
      s := s + [Alphabet[picks[i]]];
      i := i + 1;
    }
  }

  /** The counters a batch loop prints at the end. */
  datatype Tally = Tally(success: nat, fail: nat, total: nat)

  /** A batch either finishes with its counters, or an exception ends it and nothing is reported. */
  datatype BatchRun =
    | Finished(tally: Tally)
    | BatchAborted(fault: Fault)
    | NegativeAmount  // `new String[amount]` with amount < 0 throws

  /** The id queried for draw `k`: `"user" + k`. */
  function QueryId(k: nat): string {
    "user" + Decimal(k)
  }

  predicate Answered(ledger: Ledger, k: nat) {
    ledger.select(QueryId(k)).Reply?
  }

  predicate Found(ledger: Ledger, k: nat) {
    ledger.select(QueryId(k)).Reply? && ledger.select(QueryId(k)).ret == 0
  }

  predicate AllAnswered(ledger: Ledger, picks: seq<nat>) {
    forall j :: 0 <= j < |picks| ==> Answered(ledger, picks[j])
  }

  /** How many draws name an account the ledger reports with return code 0. */
  function FoundCount(ledger: Ledger, picks: seq<nat>): (n: nat)
    ensures n <= |picks|
    ensures n == |picks| <==> forall j :: 0 <= j < |picks| ==> Found(ledger, picks[j])
    decreases |picks|
  {
    if |picks| == 0 then 0
    else FoundCount(ledger, picks[..|picks| - 1]) + (if Found(ledger, picks[|picks| - 1]) then 1 else 0)
  }

  /**
    `batchloginAuthenticationAddress(amount)`: query `amount` drawn ids and
    count the found and not-found answers. An SDK exception ends the batch.
   */
  method BatchLogin(cfg: Config, ledger: Ledger, amount: int, picks: seq<nat>) returns (run: BatchRun)
    requires amount >= 0 ==> |picks| == amount && forall j :: 0 <= j < |picks| ==> picks[j] < amount
    ensures run.Finished? <==> LoadProperty(cfg.contractAddress).Some? && amount >= 0 && AllAnswered(ledger, picks)
    ensures run == NegativeAmount <==> LoadProperty(cfg.contractAddress).Some? && amount < 0
    ensures run == BatchAborted(ConfigurationError) <==> LoadProperty(cfg.contractAddress).None?
    ensures run == BatchAborted(LedgerError) <==>
      LoadProperty(cfg.contractAddress).Some? && amount >= 0 && !AllAnswered(ledger, picks)
    ensures run.Finished? ==> run.tally.success + run.tally.fail == run.tally.total == amount
    ensures run.Finished? ==> run.tally.success == FoundCount(ledger, picks)
  {
    if LoadProperty(cfg.contractAddress).None? {
      return BatchAborted(ConfigurationError);
    }
    if amount < 0 {
      return NegativeAmount;
    }
    var success, fail, total := 0, 0, 0;
    var i := 0;
    while i < amount
      invariant 0 <= i <= amount
      invariant success + fail == total == i
      invariant success == FoundCount(ledger, picks[..i])
      invariant AllAnswered(ledger, picks[..i])
    {
      assert picks[..i + 1][..i] == picks[..i];
      match ledger.select(QueryId(picks[i])) {
        case SdkFailure =>
          return BatchAborted(LedgerError);
        case Reply(ret, _) =>
          if ret == 0 {
            success := success + 1;
          } else {
            fail := fail + 1;
          }
      }
      total := total + 1;
      i := i + 1;
    }
    assert picks[..i] == picks;
    run := Finished(Tally(success, fail, total));
  }

  /** The fixed profile every batch registration carries. */
  const BatchProfile: string := "Phone+1667727772;Hobby:Football"

  /** The id registered for draw `k`: `"batchtestuser" + k`. */
  function BatchUserId(k: nat): string {
    "batchtestuser" + Decimal(k)
  }

  /** The tuple `batchRegister` submits for draw `k`: self-signed with the client's key pair. */
  function BatchSubmission(cs: Suite, kp: KeyPair, k: nat): (sub: Submission)
    ensures sub.accountId == BatchUserId(k) && sub.record.data == BatchProfile
    ensures SignVerifyRoundTrip(cs) ==> Authentication.SelfSignatureValid(cs, BatchUserId(k), sub.record)
  {
    Authentication.SelfSignedSubmission(cs, kp, BatchUserId(k), BatchProfile)
  }

  predicate NoSubmitFailure(receipts: seq<Receipt>) {
    forall j :: 0 <= j < |receipts| ==> receipts[j].Receipt?
  }

  /** Receipts whose first register event has ret == 0. */
  function CountRegistered(receipts: seq<Receipt>): nat
    decreases |receipts|
  {
    if |receipts| == 0 then 0
    else
      var last := receipts[|receipts| - 1];
      CountRegistered(receipts[..|receipts| - 1]) + (if InterpretReceipt(last) == Registered then 1 else 0)
  }

  /** Receipts whose first register event has a non-zero ret. */
  function CountRejected(receipts: seq<Receipt>): nat
    decreases |receipts|
  {
    if |receipts| == 0 then 0
    else
      var last := receipts[|receipts| - 1];
      CountRejected(receipts[..|receipts| - 1]) + (if InterpretReceipt(last).Rejected? then 1 else 0)
  }

  /** Receipts without any register event. */
  function CountMissing(receipts: seq<Receipt>): nat
    decreases |receipts|
  {
    if |receipts| == 0 then 0
    else
      var last := receipts[|receipts| - 1];
      CountMissing(receipts[..|receipts| - 1]) + (if InterpretReceipt(last) == EventNotFound then 1 else 0)
  }

  /** When no submission threw, every receipt is exactly one of registered, rejected or missing its event. */
  lemma {:induction false} ReceiptCountsPartition(receipts: seq<Receipt>)
    requires NoSubmitFailure(receipts)
    ensures CountRegistered(receipts) + CountRejected(receipts) + CountMissing(receipts) == |receipts|
    decreases |receipts|
  {
    if |receipts| > 0 {
      var prefix := receipts[..|receipts| - 1];
      assert NoSubmitFailure(prefix) by {
        forall j | 0 <= j < |prefix| ensures prefix[j].Receipt? {
          assert prefix[j] == receipts[j];
        }
      }
      ReceiptCountsPartition(prefix);
    }
  }

  /**
    `batchRegister(amount)`: register `amount` self-signed records under drawn
    ids and count the receipts. A receipt without an event is counted in the
    total only. An SDK exception ends the batch.
   */
  method BatchRegister(cs: Suite, kp: KeyPair, cfg: Config, amount: int, picks: seq<nat>, receipts: seq<Receipt>)
    returns (run: BatchRun, submitted: seq<Submission>)
    requires amount >= 0 ==>
      |picks| == amount && |receipts| == amount && forall j :: 0 <= j < |picks| ==> picks[j] < amount
    ensures amount >= 0 ==> |submitted| <= amount
    ensures forall j :: 0 <= j < |submitted| ==> j < |picks| && submitted[j] == BatchSubmission(cs, kp, picks[j])
    ensures run.Finished? <==>
      LoadProperty(cfg.contractAddress).Some? && amount >= 0 && NoSubmitFailure(receipts)
    ensures run == NegativeAmount <==> LoadProperty(cfg.contractAddress).Some? && amount < 0
    ensures run == BatchAborted(ConfigurationError) <==> LoadProperty(cfg.contractAddress).None?
    ensures run == BatchAborted(LedgerError) <==>
      LoadProperty(cfg.contractAddress).Some? && amount >= 0 && !NoSubmitFailure(receipts)
    ensures !run.Finished? && run != BatchAborted(LedgerError) ==> submitted == []
    ensures run.Finished? ==> |submitted| == run.tally.total == amount
    ensures run.Finished? ==>
      && run.tally.success == CountRegistered(receipts)
      && run.tally.fail == CountRejected(receipts)
      && run.tally.success + run.tally.fail + CountMissing(receipts) == run.tally.total
  {
    submitted := [];
    if LoadProperty(cfg.contractAddress).None? {
      return BatchAborted(ConfigurationError), submitted;
    }
    if amount < 0 {
      return NegativeAmount, submitted;
    }
    var success, fail, total := 0, 0, 0;
    var i := 0;
    while i < amount
      invariant 0 <= i <= amount
      invariant |submitted| == total == i
      invariant forall j :: 0 <= j < i ==> submitted[j] == BatchSubmission(cs, kp, picks[j])
      invariant success == CountRegistered(receipts[..i])
      invariant fail == CountRejected(receipts[..i])
      invariant NoSubmitFailure(receipts[..i])
    {
      assert receipts[..i + 1][..i] == receipts[..i];
      submitted := submitted + [BatchSubmission(cs, kp, picks[i])];
      match InterpretReceipt(receipts[i]) {
        case RegisterAborted(_) =>
          return BatchAborted(LedgerError), submitted;
        case Registered =>
          success := success + 1;
        case Rejected(_) =>
          fail := fail + 1;
        case EventNotFound =>
      }
      total := total + 1;
      i := i + 1;
    }
    assert receipts[..i] == receipts;
    ReceiptCountsPartition(receipts);
    run := Finished(Tally(success, fail, total));
  }

  /**
    Every record a batch registration submits passes login's self-check, so
    once the ledger holds it unchanged, login within the window succeeds.
   */
  lemma BatchRegisteredAccountLogsIn(cs: Suite, registrant: KeyPair, client: KeyPair, cfg: Config, ledger: Ledger,
                                     k: nat, issuedAt: Protocol.Millis, now: Protocol.Millis)
    requires SignVerifyRoundTrip(cs)
    requires LoadProperty(cfg.contractAddress).Some?
    requires ledger.select(BatchUserId(k)) == Reply(0, BatchSubmission(cs, registrant, k).record)
    requires !Protocol.IsExpired(issuedAt, now)
    ensures Authentication.Login(cs, client, cfg, ledger, BatchUserId(k), issuedAt, now).outcome
         == Authentication.LoginSuccess
  {
    Authentication.SelfSignedRecordLogsIn(cs, registrant, client, cfg, ledger, BatchUserId(k), BatchProfile, issuedAt, now);
  }
}

=== FILE: authorization.dfy ===
/**
  The authorization protocol: registration of an owner-signed resource record
  and the grant decision over it.

  Grant runs, in order: load the recorded owner public key (a failed load is
  swallowed and leaves the anchor empty), issue a token over
  `accountId + timeStamp + anchor` with the client's key pair, check the
  token's age, load the contract address, fetch the record, compare its key
  with the anchor, verify the token under the client's own public key, and
  finally verify the resource signature over `resource + accountId + publicKey`.
 */
module Authorization {
  import opened Optional
  import opened Text
  import opened Crypto
  import opened Records
  import opened Protocol

  datatype GrantOutcome =
    | Granted
    | Expired              // more than the window elapsed since the token was issued
    | ResourceNotFound     // select returned a non-zero code
    | OwnerMismatch        // the stored key differs from the recorded owner key
    | InvalidToken         // the token signature does not verify
    | ResourceDataInvalid  // the stored resource's signature does not verify
    | GrantAborted(fault: Fault)

  const GrantPipeline: seq<Step> :=
    [LoadOwnerKey, IssueToken, CheckExpiry, LoadAddress, FetchRecord, CheckOwner, VerifyToken, VerifyResource]

  /** The owner anchor: the recorded owner key, or `""` when that load fails (the failure is swallowed). */
  function OwnerAnchor(cfg: Config): (anchor: string)
    ensures anchor == "" || (cfg.ownerPublicKey == Some(anchor) && !IsBlank(anchor))
    ensures cfg.ownerPublicKey.Some? && !IsBlank(cfg.ownerPublicKey.value) ==> anchor == cfg.ownerPublicKey.value
  {
    BlankIffAllTrimmed(if cfg.ownerPublicKey.Some? then cfg.ownerPublicKey.value else "");
    match LoadProperty(cfg.ownerPublicKey)
    case Some(key) => key
    case None => ""
  }

  /** The text a resource record's signature covers: `resource + accountId + publicKey`. */
  function ResourceMessage(resource: string, accountId: string, publicKey: string): string {
    resource + accountId + publicKey
  }

  /** The stored resource's signature verifies under the stored public key. */
  predicate ResourceSignatureValid(cs: Suite, accountId: string, rec: Record) {
    VerifyData(cs, rec.publicKey, ResourceMessage(rec.data, accountId, rec.publicKey), rec.signature)
  }

  /** The grant decision flow (`grantAuthorizationResource`), with the two clock readings as parameters. */
  function Grant(cs: Suite, kp: KeyPair, cfg: Config, ledger: Ledger, accountId: string,
                 issuedAt: Millis, now: Millis): (r: Run<GrantOutcome>)
    ensures r.steps <= GrantPipeline && |r.steps| >= 3
    ensures r.outcome == Expired <==> IsExpired(issuedAt, now)
    ensures FetchRecord in r.steps <==> !IsExpired(issuedAt, now) && LoadProperty(cfg.contractAddress).Some?
    ensures CheckOwner in r.steps <==>
      FetchRecord in r.steps && ledger.select(accountId).Reply? && ledger.select(accountId).ret == 0
    ensures VerifyResource in r.steps <==>
      VerifyToken in r.steps
      && VerifyData(cs, kp.hexPublicKey, TokenMessage(accountId, issuedAt, OwnerAnchor(cfg)),
                    IssueAccessToken(cs, kp, accountId, issuedAt, OwnerAnchor(cfg)))
    ensures VerifyToken in r.steps ==>
      ledger.select(accountId).Reply? && ledger.select(accountId).record.publicKey == OwnerAnchor(cfg)
    ensures r.outcome == Granted ==>
      VerifyResource in r.steps && ledger.select(accountId).Reply?
      && ResourceSignatureValid(cs, accountId, ledger.select(accountId).record)
    ensures r.outcome == GrantAborted(ConfigurationError) <==>
      !IsExpired(issuedAt, now) && LoadProperty(cfg.contractAddress).None?
    ensures r.outcome == GrantAborted(LedgerError) <==> FetchRecord in r.steps && ledger.select(accountId).SdkFailure?
    ensures r.outcome == ResourceNotFound <==>
      FetchRecord in r.steps && ledger.select(accountId).Reply? && ledger.select(accountId).ret != 0
    ensures r.outcome == OwnerMismatch <==>
      FetchRecord in r.steps && ledger.select(accountId).Reply? && ledger.select(accountId).ret == 0
      && ledger.select(accountId).record.publicKey != OwnerAnchor(cfg)
    ensures r.outcome == InvalidToken <==>
      VerifyToken in r.steps
      && !VerifyData(cs, kp.hexPublicKey, TokenMessage(accountId, issuedAt, OwnerAnchor(cfg)),
                     IssueAccessToken(cs, kp, accountId, issuedAt, OwnerAnchor(cfg)))
  {
    var anchor := OwnerAnchor(cfg);
    var token := IssueAccessToken(cs, kp, accountId, issuedAt, anchor);
    var s0 := [LoadOwnerKey, IssueToken, CheckExpiry];
    if IsExpired(issuedAt, now) then Run(s0, Expired)
    else
      var s1 := s0 + [LoadAddress];
      if LoadProperty(cfg.contractAddress).None? then Run(s1, GrantAborted(ConfigurationError))
      else
        var s2 := s1 + [FetchRecord];
        match ledger.select(accountId)
        case SdkFailure => Run(s2, GrantAborted(LedgerError))
        case Reply(ret, rec) =>
          if ret != 0 then Run(s2, ResourceNotFound)
          else
            var s3 := s2 + [CheckOwner];
            if rec.publicKey != anchor then Run(s3, OwnerMismatch)
            else
              var s4 := s3 + [VerifyToken];
              if !VerifyData(cs, kp.hexPublicKey, TokenMessage(accountId, issuedAt, anchor), token) then
                Run(s4, InvalidToken)
              else
                Run(s4 + [VerifyResource],
                    if ResourceSignatureValid(cs, accountId, rec) then Granted else ResourceDataInvalid)
  }

  /** Expiry is checked before the ledger is read; ownership before the token; the resource signature last. */
  lemma GrantCheckOrder(cs: Suite, kp: KeyPair, cfg: Config, ledger: Ledger, accountId: string,
                        issuedAt: Millis, now: Millis)
    ensures Precedes(Grant(cs, kp, cfg, ledger, accountId, issuedAt, now).steps, CheckExpiry, FetchRecord)
    ensures Precedes(Grant(cs, kp, cfg, ledger, accountId, issuedAt, now).steps, CheckOwner, VerifyToken)
    ensures Precedes(Grant(cs, kp, cfg, ledger, accountId, issuedAt, now).steps, VerifyToken, VerifyResource)
  {
    var steps := Grant(cs, kp, cfg, ledger, accountId, issuedAt, now).steps;
    PrefixKeepsOrder(steps, GrantPipeline, 2, 4);
    PrefixKeepsOrder(steps, GrantPipeline, 5, 6);
    PrefixKeepsOrder(steps, GrantPipeline, 6, 7);
  }

  /**
    An expired token ends grant at Expired without looking at the ledger or the
    contract address: any two ledgers and addresses give the same run.
   */
  lemma GrantExpiredIgnoresLedger(cs: Suite, kp: KeyPair, owner: Option<string>,
                                  address1: Option<string>, address2: Option<string>,
                                  ledger1: Ledger, ledger2: Ledger, accountId: string,
                                  issuedAt: Millis, now: Millis)
    requires now - issuedAt > ExpiryWindowMillis
    ensures Grant(cs, kp, Config(address1, owner), ledger1, accountId, issuedAt, now)
         == Grant(cs, kp, Config(address2, owner), ledger2, accountId, issuedAt, now)
         == Run([LoadOwnerKey, IssueToken, CheckExpiry], Expired)
  {
  }

  /** Exactly the window's length still reads the ledger; one millisecond more is Expired. */
  lemma GrantExpiryBoundary(cs: Suite, kp: KeyPair, cfg: Config, ledger: Ledger, accountId: string,
                            issuedAt: Millis, now: Millis)
    requires LoadProperty(cfg.contractAddress).Some?
    ensures now - issuedAt == ExpiryWindowMillis ==>
      FetchRecord in Grant(cs, kp, cfg, ledger, accountId, issuedAt, now).steps
    ensures now - issuedAt == ExpiryWindowMillis + 1 ==>
      Grant(cs, kp, cfg, ledger, accountId, issuedAt, now).outcome == Expired
  {
  }

  /** A non-zero return code ends grant at ResourceNotFound, whatever the crypto suite and key pair. */
  lemma GrantNotFoundVerifiesNothing(cs1: Suite, cs2: Suite, kp1: KeyPair, kp2: KeyPair, cfg: Config,
                                     ledger: Ledger, accountId: string, issuedAt: Millis, now: Millis)
    requires !IsExpired(issuedAt, now)
    requires LoadProperty(cfg.contractAddress).Some?
    requires ledger.select(accountId).Reply? && ledger.select(accountId).ret != 0
    ensures Grant(cs1, kp1, cfg, ledger, accountId, issuedAt, now)
         == Grant(cs2, kp2, cfg, ledger, accountId, issuedAt, now)
         == Run(GrantPipeline[..5], ResourceNotFound)
  {
  }

  /** A stored key other than the anchor ends grant at OwnerMismatch, whatever the crypto, the data or the signatures. */
  lemma GrantOwnerMismatchIgnoresSignatures(cs: Suite, kp: KeyPair, cfg: Config, ledger: Ledger, accountId: string,
                                            issuedAt: Millis, now: Millis)
    requires !IsExpired(issuedAt, now)
    requires LoadProperty(cfg.contractAddress).Some?
    requires ledger.select(accountId).Reply? && ledger.select(accountId).ret == 0
    requires ledger.select(accountId).record.publicKey != OwnerAnchor(cfg)
    ensures Grant(cs, kp, cfg, ledger, accountId, issuedAt, now) == Run(GrantPipeline[..6], OwnerMismatch)
  {
  }

  /** Under the round trip, the self-issued access token always verifies: InvalidToken cannot happen. */
  lemma GrantNeverInvalidToken(cs: Suite, kp: KeyPair, cfg: Config, ledger: Ledger, accountId: string,
                               issuedAt: Millis, now: Millis)
    requires SignVerifyRoundTrip(cs)
    ensures Grant(cs, kp, cfg, ledger, accountId, issuedAt, now).outcome != InvalidToken
  {
  }

  /**
    Under the round trip, grant is Granted exactly when the token is fresh, the
    record is found, its key is the anchor and its resource signature verifies;
    it is ResourceDataInvalid exactly when all but the last hold.
   */
  lemma GrantedIff(cs: Suite, kp: KeyPair, cfg: Config, ledger: Ledger, accountId: string,
                   issuedAt: Millis, now: Millis)
    requires SignVerifyRoundTrip(cs)
    ensures Grant(cs, kp, cfg, ledger, accountId, issuedAt, now).outcome == Granted <==>
      && !IsExpired(issuedAt, now)
      && LoadProperty(cfg.contractAddress).Some?
      && ledger.select(accountId).Reply?
      && ledger.select(accountId).ret == 0
      && ledger.select(accountId).record.publicKey == OwnerAnchor(cfg)
      && ResourceSignatureValid(cs, accountId, ledger.select(accountId).record)
    ensures Grant(cs, kp, cfg, ledger, accountId, issuedAt, now).outcome == ResourceDataInvalid <==>
      && !IsExpired(issuedAt, now)
      && LoadProperty(cfg.contractAddress).Some?
      && ledger.select(accountId).Reply?
      && ledger.select(accountId).ret == 0
      && ledger.select(accountId).record.publicKey == OwnerAnchor(cfg)
      && !ResourceSignatureValid(cs, accountId, ledger.select(accountId).record)
  {
  }

  /** What `registerAuthorizationResource` leaves behind: the updated settings and the register attempt. */
  datatype ResourceRegistration = ResourceRegistration(config: Config, registration: Registration)

  /**
    `registerAuthorizationResource`: record the client's own public key as the
    owner anchor, sign `resource + accountId + publicKey`, and submit
    `(accountId, publicKey, resource, signature)`.
   */
  function RegisterResource(cs: Suite, kp: KeyPair, cfg: Config, accountId: string, resource: string,
                            receipt: Receipt): (r: ResourceRegistration)
    ensures r.config == Config(cfg.contractAddress, Some(kp.hexPublicKey))
    ensures r.registration.submitted.Some? <==> LoadProperty(cfg.contractAddress).Some?
    ensures r.registration.submitted.Some? ==>
      var sub := r.registration.submitted.value;
      && sub.accountId == accountId
      && sub.record.publicKey == kp.hexPublicKey
      && sub.record.data == resource
      && (SignVerifyRoundTrip(cs) ==> ResourceSignatureValid(cs, accountId, sub.record))
    ensures r.registration.submitted.Some? ==> r.registration.outcome == InterpretReceipt(receipt)
    ensures r.registration.submitted.None? ==> r.registration.outcome == RegisterAborted(ConfigurationError)
  {
    var cfg' := cfg.(ownerPublicKey := Some(kp.hexPublicKey));
    var signature := SignData(cs, kp, ResourceMessage(resource, accountId, kp.hexPublicKey));
    ResourceRegistration(cfg', Submit(cfg', Submission(accountId, Record(kp.hexPublicKey, resource, signature)), receipt))
  }

  /**
    Registering a resource and then granting it, with the record unchanged in
    the ledger and the token fresh, gives Granted. The granting client may hold
    a different key pair from the registering one (each run creates its own);
    the owner's key must not be blank, or its later load would fail.
   */
  lemma RegisterThenGrant(cs: Suite, owner: KeyPair, client: KeyPair, cfg: Config, ledger: Ledger,
                          accountId: string, resource: string, receipt: Receipt, issuedAt: Millis, now: Millis)
    requires SignVerifyRoundTrip(cs)
    requires !IsBlank(owner.hexPublicKey)
    requires LoadProperty(cfg.contractAddress).Some?
    requires
      var reg := RegisterResource(cs, owner, cfg, accountId, resource, receipt);
      ledger.select(accountId) == Reply(0, reg.registration.submitted.value.record)
    requires !IsExpired(issuedAt, now)
    ensures
      var reg := RegisterResource(cs, owner, cfg, accountId, resource, receipt);
      Grant(cs, client, reg.config, ledger, accountId, issuedAt, now) == Run(GrantPipeline, Granted)
  {
  }
}

=== FILE: crypto.dfy ===
/**
  The signer: a hash function and a signature scheme over an opaque key pair.
  In the system these are Keccak-256 and ECDSA over secp256k1; here they are
  uninterpreted function values, and the only thing assumed of them is the
  sign/verify round trip, stated as the predicate `SignVerifyRoundTrip`.
  Digests, public keys and signatures are all hex strings, as in the system.
 */
module Crypto {

  /** A key pair: an opaque private part and the hex-encoded public key. */
  datatype KeyPair = KeyPair(secret: string, hexPublicKey: string)

  /** The crypto suite: `hash(data)`, `sign(digest, keyPair)` and `verify(publicKey, digest, signature)`. */
  datatype Suite = Suite(
    hash: string -> string,
    sign: (string, KeyPair) -> string,
    verify: (string, string, string) -> bool)

  /** A signature made with a key pair verifies under that key pair's public key, for every digest. */
  ghost predicate SignVerifyRoundTrip(cs: Suite) {
    forall kp: KeyPair, digest: string :: cs.verify(kp.hexPublicKey, digest, cs.sign(digest, kp))
  }

  /** Verify `signature` over the hash of `data` under `publicKey` (`verifySignature`, and every inline check). */
  predicate VerifyData(cs: Suite, publicKey: string, data: string, signature: string) {
    cs.verify(publicKey, cs.hash(data), signature)
  }

  /** Hash `data`, then sign the digest with `kp` (`generateSigantureWithSecp256k1`). */
  function SignData(cs: Suite, kp: KeyPair, data: string): (signature: string)
    ensures SignVerifyRoundTrip(cs) ==> VerifyData(cs, kp.hexPublicKey, data, signature)
  {
    cs.sign(cs.hash(data), kp)
  }
}

=== FILE: optional.dfy ===
/** Presence or absence of a value, such as a property that may be unset in a properties file. */
module Optional {

  datatype Option<T> = None | Some(value: T)
}

=== FILE: protocol.dfy ===
/**
  Pieces shared by the login and grant flows: the freshness window, the token
  message layout, and the steps a flow runs through (the numbered stages the
  system reports while it works).
 */
module Protocol {
  import opened Text
  import opened Crypto

  /** Token freshness window: five minutes in milliseconds (`5*60*1000`). */
  const ExpiryWindowMillis: int := 5 * 60 * 1000

  /**
    A reading of `System.currentTimeMillis()`: a non-negative Java `long`.
    The difference of two such readings always fits in a `long`, so the
    elapsed time `now - issuedAt` is computed exactly, without wrap-around.
   */
  type Millis = t: int | 0 <= t < 0x8000_0000_0000_0000

  /** The flows' expiry test: strictly more than the window has elapsed. */
  predicate IsExpired(issuedAt: Millis, now: Millis) {
    now - issuedAt > ExpiryWindowMillis
  }

  /** The token text `accountId + timeStamp + publicKey`, the long rendered in decimal. */
  function TokenMessage(accountId: string, issuedAt: Millis, publicKey: string): string {
    accountId + Decimal(issuedAt) + publicKey
  }

  /** The access token: the key pair's signature over the hash of the token text. */
  function IssueAccessToken(cs: Suite, kp: KeyPair, accountId: string, issuedAt: Millis, publicKey: string): (token: string)
    ensures SignVerifyRoundTrip(cs) ==> VerifyData(cs, kp.hexPublicKey, TokenMessage(accountId, issuedAt, publicKey), token)
  {
    SignData(cs, kp, TokenMessage(accountId, issuedAt, publicKey))
  }

  /** Exactly the window's length is still fresh; one millisecond more is expired. */
  lemma ExpiryBoundary(issuedAt: Millis, now: Millis)
    ensures now - issuedAt == ExpiryWindowMillis ==> !IsExpired(issuedAt, now)
    ensures now - issuedAt == ExpiryWindowMillis + 1 ==> IsExpired(issuedAt, now)
    ensures now <= issuedAt ==> !IsExpired(issuedAt, now)
  {
  }

  /** For a fixed account id and key, the token text determines the timestamp. */
  lemma TokenMessageBindsTimestamp(accountId: string, t1: Millis, t2: Millis, publicKey: string)
    requires TokenMessage(accountId, t1, publicKey) == TokenMessage(accountId, t2, publicKey)
    ensures t1 == t2
  {
    var d1, d2 := Decimal(t1), Decimal(t2);
    var m1, m2 := accountId + d1 + publicKey, accountId + d2 + publicKey;
    assert |d1| == |d2|;
    assert d1 == m1[|accountId|..|accountId| + |d1|];
    assert d2 == m2[|accountId|..|accountId| + |d2|];
    DecimalInjective(t1, t2);
  }

  /** The stages of the two flows. */
  datatype Step =
    | LoadOwnerKey         // read the recorded owner public key (grant only)
    | LoadAddress          // read the deployed contract address
    | FetchRecord          // select(accountId) on the ledger
    | VerifySelfSignature  // check the stored identity record's own signature (login only)
    | IssueToken           // sign the timestamped token text
    | CheckExpiry          // compare the elapsed time against the window
    | CheckOwner           // compare the stored key with the owner anchor (grant only)
    | VerifyToken          // verify the token signature
    | VerifyResource       // check the stored resource's signature (grant only)

  /** A finished attempt: the stages it ran, in order, and its terminal outcome. */
  datatype Run<O> = Run(steps: seq<Step>, outcome: O)

  /** In `steps`, every occurrence of `later` is preceded by an occurrence of `earlier`. */
  ghost predicate Precedes(steps: seq<Step>, earlier: Step, later: Step) {
    forall j :: 0 <= j < |steps| && steps[j] == later ==> earlier in steps[..j]
  }

  /** Any prefix of a pipeline keeps the pipeline's order. */
  lemma PrefixKeepsOrder(steps: seq<Step>, pipeline: seq<Step>, a: nat, b: nat)
    requires steps <= pipeline
    requires a < b < |pipeline|
    requires forall k :: 0 <= k < |pipeline| && k != b ==> pipeline[k] != pipeline[b]
    ensures Precedes(steps, pipeline[a], pipeline[b])
  {
    forall j | 0 <= j < |steps| && steps[j] == pipeline[b]
      ensures pipeline[a] in steps[..j]
    {
      assert steps[j] == pipeline[j];
      assert j == b;
      assert steps[..j][a] == pipeline[a];
    }
  }
}

=== FILE: records.dfy ===
/**
  The ledger collaborator and the local configuration, at their interface:
  - `select(accountId)` answers with the contract's tuple (return code, public
    key, data, signature), or the SDK throws;
  - `register(...)` answers with a transaction receipt whose register events
    carry a return code, or the SDK throws;
  - the configuration holds the deployed contract address and, for the
    authorization flow, the owner public key recorded at registration.
 */
module Records {
  import opened Optional
  import opened Text

  /** The stored tuple: public key, data (profile or resource) and signature. */
  datatype Record = Record(publicKey: string, data: string, signature: string)

  /** The answer to `select(accountId)`: the return code with the tuple, or an SDK exception. */
  datatype Fetch = Reply(ret: int, record: Record) | SdkFailure

  /** The ledger as seen by the flows: a read of the record stored under an account id. */
  datatype Ledger = Ledger(select: string -> Fetch)

  /** The answer to a register transaction: the `ret` of every register event in the receipt, or an SDK exception. */
  datatype Receipt = Receipt(events: seq<int>) | SubmitFailure

  /** Why an attempt stopped before reaching a protocol decision. */
  datatype Fault =
    | ConfigurationError  // the contract address is absent or blank
    | LedgerError         // the SDK threw

  datatype RegisterOutcome =
    | Registered            // first event has ret == 0
    | Rejected(ret: int)    // first event has another ret (the id is taken)
    | EventNotFound         // the receipt has no register event
    | RegisterAborted(fault: Fault)

  /** The tuple handed to the contract's `register`. */
  datatype Submission = Submission(accountId: string, record: Record)

  /** What a register attempt submitted (nothing if it stopped first) and how it ended. */
  datatype Registration = Registration(submitted: Option<Submission>, outcome: RegisterOutcome)

  /** Persisted settings: the contract address and the recorded owner public key, each possibly unset. */
  datatype Config = Config(contractAddress: Option<string>, ownerPublicKey: Option<string>)

  /** A properties load: fails when the property is absent or blank after `trim()`. */
  function LoadProperty(value: Option<string>): (r: Option<string>)
    ensures r.Some? <==> value.Some? && exists i :: 0 <= i < |value.value| && !IsTrimmed(value.value[i])
    ensures r.Some? ==> r.value == value.value
  {
    match value
    case None => None
    case Some(v) =>
      BlankIffAllTrimmed(v);
      if IsBlank(v) then None else Some(v)
  }

  /** Three-way receipt interpretation shared by every register path. */
  function InterpretReceipt(receipt: Receipt): (o: RegisterOutcome)
    ensures o == EventNotFound <==> receipt.Receipt? && |receipt.events| == 0
    ensures o == Registered <==> receipt.Receipt? && |receipt.events| > 0 && receipt.events[0] == 0
    ensures o.Rejected? <==> receipt.Receipt? && |receipt.events| > 0 && receipt.events[0] != 0
    ensures o.Rejected? ==> o.ret == receipt.events[0] && o.ret != 0
    ensures o.RegisterAborted? <==> receipt.SubmitFailure?
  {
    match receipt
    case SubmitFailure => RegisterAborted(LedgerError)
    case Receipt(events) =>
      if |events| == 0 then EventNotFound
      else if events[0] == 0 then Registered
      else Rejected(events[0])
  }

  /** Load the contract address, submit `sub`, interpret the receipt. */
  function Submit(cfg: Config, sub: Submission, receipt: Receipt): (reg: Registration)
    ensures reg.submitted.Some? <==> LoadProperty(cfg.contractAddress).Some?
    ensures reg.submitted.Some? ==> reg.submitted.value == sub && reg.outcome == InterpretReceipt(receipt)
    ensures reg.submitted.None? ==> reg.outcome == RegisterAborted(ConfigurationError)
  {
    if LoadProperty(cfg.contractAddress).None? then Registration(None, RegisterAborted(ConfigurationError))
    else Registration(Some(sub), InterpretReceipt(receipt))
  }
}

=== FILE: text.dfy ===
/**
  The two pieces of Java string behaviour the protocol depends on:
  - decimal rendering of a non-negative `long`/`int`, as produced by string
    concatenation (`accountId + timeStamp`) and `Integer.toString`;
  - `String.trim()`, which removes every leading and trailing character whose
    code is at most U+0020, and the "blank" test `trim().equals("")`.
 */
module Text {

  predicate IsDigit(c: char) {
    '0' <= c <= '9'
  }

  predicate IsDigits(s: string) {
    forall i :: 0 <= i < |s| ==> IsDigit(s[i])
  }

  function DigitChar(d: nat): (c: char)
    requires d < 10
    ensures IsDigit(c)
    ensures c as int - '0' as int == d
  {
    ('0' as int + d) as char
  }

  /** Decimal rendering of `n`, most significant digit first, without leading zeros. */
  function Decimal(n: nat): (s: string)
    ensures |s| >= 1 && IsDigits(s)
    ensures s[0] == '0' <==> n == 0
    ensures n < 10 <==> |s| == 1
    decreases n
  {
    if n < 10 then [DigitChar(n)] else Decimal(n / 10) + [DigitChar(n % 10)]
  }

  /** The value of a string of decimal digits; the inverse of `Decimal`. */
  function ParseDecimal(s: string): nat
    requires IsDigits(s)
    decreases |s|
  {
    if |s| == 0 then 0
    else ParseDecimal(s[..|s| - 1]) * 10 + (s[|s| - 1] as int - '0' as int)
  }

  /** Rendering then parsing gives the number back, so `Decimal` is injective. */
  lemma {:induction false} DecimalRoundTrip(n: nat)
    ensures ParseDecimal(Decimal(n)) == n
    decreases n
  {
    if n >= 10 {
      var s := Decimal(n);
      assert s[..|s| - 1] == Decimal(n / 10);
      DecimalRoundTrip(n / 10);
    }
  }

  lemma DecimalInjective(m: nat, n: nat)
    requires Decimal(m) == Decimal(n)
    ensures m == n
  {
    DecimalRoundTrip(m);
    DecimalRoundTrip(n);
  }

  /** The characters `String.trim()` removes: every code point at most U+0020. */
  predicate IsTrimmed(c: char) {
    c <= ' '
  }

  function TrimStart(s: string): (r: string)
    decreases |s|
  {
    if |s| > 0 && IsTrimmed(s[0]) then TrimStart(s[1..]) else s
  }

  function TrimEnd(s: string): (r: string)
    decreases |s|
  {
    if |s| > 0 && IsTrimmed(s[|s| - 1]) then TrimEnd(s[..|s| - 1]) else s
  }

  /** `String.trim()`: strip trimmable characters from both ends. */
  function Trim(s: string): string {
    TrimEnd(TrimStart(s))
  }

  /** The configuration loader's rejection test: `value.trim().equals("")`. */
  predicate IsBlank(s: string) {
    Trim(s) == ""
  }

  lemma {:induction false} TrimStartEmptyIffAllTrimmed(s: string)
    ensures TrimStart(s) == "" <==> forall i :: 0 <= i < |s| ==> IsTrimmed(s[i])
    ensures TrimStart(s) != "" ==> !IsTrimmed(TrimStart(s)[0])
    decreases |s|
  {
    if |s| > 0 && IsTrimmed(s[0]) {
      TrimStartEmptyIffAllTrimmed(s[1..]);
      assert forall i :: 1 <= i < |s| ==> s[i] == s[1..][i - 1];
    }
  }

  lemma {:induction false} TrimEndKeepsLeadingCharacter(s: string)
    requires |s| > 0 && !IsTrimmed(s[0])
    ensures |TrimEnd(s)| > 0
    decreases |s|
  {
    if IsTrimmed(s[|s| - 1]) {
      TrimEndKeepsLeadingCharacter(s[..|s| - 1]);
    }
  }

  /** A value is blank exactly when every character of it is one `trim()` removes. */
  lemma BlankIffAllTrimmed(s: string)
    ensures IsBlank(s) <==> forall i :: 0 <= i < |s| ==> IsTrimmed(s[i])
  {
    TrimStartEmptyIffAllTrimmed(s);
    var t := TrimStart(s);
    if t != "" {
      TrimEndKeepsLeadingCharacter(t);
    }
  }
}
